=== FILE: README.md ===
# Moss Verilog plagiarism runner — a Dafny model

`main.py` is a command-line tool that gathers Verilog submissions for the
Moss similarity service. It first registers the base (reference) files; a
missing or refused base file ends the run before any archive is touched.
It then finds every `*.tar.gz` archive under a student directory and sets
its mode to 0644 (owner read/write, group and others read) so that it can
be read. It extracts each archive next to itself,
trying gzip first and plain tar second. It walks the extracted tree and
registers the files the chosen mode selects:

- folder mode: `.v` files directly inside a directory with a given name;
- single mode: files whose name ends with a given suffix.

It then sends the job, saves and downloads the report, and finally deletes
the extraction directories. Throughout, it
warns about and skips every recoverable per-archive and per-file failure.

The model keeps the tool's control flow and data and leaves out the outside
world. Everything the tool asks of the outside world is a given input:

- whether `os.chmod` succeeds;
- what each archive format does with an archive;
- what `os.walk` lists;
- whether `Moss.addFile` / `addBaseFile` accept a file;
- whether each report step raises;
- which directory deletions fail.

The tool's decisions are functions of those inputs.

| module | file | models |
|---|---|---|
| `Outcomes` | outcomes.dfy | `Option` and `Result` |
| `Strings` | strings.dfy | `str.endswith`, and `str.replace(p, "")` as `DeleteAll` |
| `Paths` | paths.dfy | paths as component sequences; `os.path.join`, `dirname`, `basename`; the extraction-directory name |
| `Extract` | extract.dfy | `extract_tar_auto`: the two-format trial |
| `Selection` | selection.dfy | the folder-mode and single-mode selection predicates |
| `Walker` | walker.dfy | the per-archive loop shared by both modes: chmod, extract, record, walk, add |
| `Batch` | batch.dfy | base-file registration and `run_moss_folder` / `run_moss_single` |
| `Report` | report.dfy | `save_moss_report`: the report steps and the best-effort cleanup loop |
| `Tool` | tool.dfy | `main`: a mode's run followed by the report step |

A path is a sequence of components. `os.path.join` appends a component,
`dirname` drops the last one and `basename` is the last one. The disk, where
it matters (cleanup), is the set of paths that exist. Deleting a directory
removes every path that has it as a prefix.

The archive loop `Walker.Collect` is a fold over the archives in discovery
order. Each archive contributes a `Collected` value: its extraction
directory, the files it registered, and the warnings printed for it. The
imperative loops `Walker.CollectLoop`, `Walker.SelectWalkLoop` and
`Walker.SelectFilesLoop` are proved to compute the same thing as the fold.

Four consequences of the code as written are worth stating, because a
reader might expect otherwise:

- `str.replace(".tar.gz", "")` deletes EVERY occurrence of `.tar.gz` from
  the archive's base name, not only a trailing one. For a stem with no
  `.tar.gz` in it this is the same as stripping the suffix
  (`Paths.ExtractDirStripsSuffix`). Otherwise two archives in one directory
  can share an extraction directory (`Paths.ExtractDirCollides`).
- `addBaseFile` is called outside any `try` in both modes. A refused base
  file raises out of the run; it never becomes a warning.
- When both formats raise `ReadError`, the exception raised names the
  archive and carries the plain-tar attempt's error; the gzip error is
  dropped.
- The cleanup loop is the last statement of `save_moss_report`. It runs
  only when sending, creating the report directory, saving the page and
  downloading all succeed; an exception in any of them leaves every
  extraction directory on disk.

## Model

| member | source | states |
|---|---|---|
| Strings.EndsWith | main.py:67 | Python `str.endswith`: the string is at least as long as the suffix and its last characters are the suffix |
| Strings.EndsWithIff | main.py:67 | `EndsWith(s, x)` holds exactly when `s` is some string followed by `x` |
| Strings.DeleteAll | main.py:46-49 | `str.replace(p, "")` never lengthens a string, and a match at the front shortens it by at least the pattern's length |
| Strings.DeleteAllFixpointIff | main.py:46-49 | deleting a non-empty pattern leaves a string unchanged exactly when the pattern does not occur in it |
| Strings.DeleteAllKeepsPrefix | main.py:46-49 | a prefix in which no match starts is kept as it is, and deletion continues after it |
| Paths.Join | main.py:68 | the joined path's directory is the given directory and its base name is the given name |
| Paths.ExtractDir | main.py:46-49 | the extraction directory sits next to the archive, named by the archive's base name with every `.tar.gz` deleted |
| Paths.ExtractDirStripsSuffix | main.py:46-49 | for a stem with no `.tar.gz` in it, `stem.tar.gz` extracts into the sibling `stem` |
| Paths.VisibleArchiveGetsOwnDir | main.py:45-49 | an archive whose name is not hidden, as every name the `*.tar.gz` glob returns is, extracts into a non-empty name starting with the same character, never into its own directory |
| Paths.ExtractDirCollides | main.py:46-49 | `stem.tar.gz` and `stem.tar.gz.tar.gz` are different archives with the same extraction directory |
| Extract.ExtractTarAuto | main.py:13-29 | `extract_tar_auto`: try gzip; on `ReadError` only, try plain tar; a second `ReadError` becomes an error naming the archive; any other exception escapes (its properties are the three lemmas below) |
| Extract.PlainIgnoredUnlessGzipUnreadable | main.py:17-29 | the plain-tar attempt affects the result only when gzip raised `ReadError` |
| Extract.TrialOrder | main.py:17-29 | gzip is tried first; plain tar is tried second, exactly when gzip raised `ReadError` |
| Extract.TrialOutcome | main.py:17-29 | the archive is extracted exactly when gzip succeeds, or gzip raised `ReadError` and plain tar succeeds; it is reported unreadable (with the plain-tar error) exactly when both raised `ReadError`; any other exception escapes |
| Selection.Selects | main.py:65-67 | folder mode selects a `.v` file whose directory has the target folder's name; single mode (main.py:111-112) selects a file whose name ends with the target suffix, in any directory |
| Walker.SelectFiles | main.py:66-73 | a walk step contributes no extraction directory, and at most one registration or warning per listed file |
| Walker.SelectWalk | main.py:64-73 | walking an extracted tree records no extraction directory |
| Walker.ProcessArchive | main.py:45-73 | an archive records its extraction directory exactly when chmod and extraction succeed; otherwise it only adds its one warning |
| Walker.Collect | main.py:43-75 | `extracted_dirs` has at most one entry per archive |
| Walker.CollectConcat | main.py:45-73 | the loop over two runs of archives is the loop over the first followed by the loop over the second |
| Walker.ExtractedInOrder | main.py:57-62 | `extracted_dirs` lists, in discovery order, the extraction directories of exactly the archives that were chmodded and extracted |
| Walker.SkippedArchiveInvisible | main.py:51-62 | an archive whose chmod or extraction fails contributes nothing but its warning: the directories and files recorded are those of the other archives |
| Walker.ChmodFailureSkips | main.py:51-55 | an archive whose chmod fails is warned about and skipped: it is not extracted, recorded or walked |
| Walker.SelectFilesReported | main.py:66-73 | a walk step registers or warns about path `p` exactly when one of its files is selected, lands at `p` and is accepted or refused |
| Walker.SelectWalkReported | main.py:64-73 | a walk registers or warns about `p` exactly when one of its steps does |
| Walker.ProcessArchiveReported | main.py:51-73 | an archive registers or warns about a file exactly when it was extracted and one of its walk steps does |
| Walker.CollectReported | main.py:45-73 | the loop registers or warns about a file exactly when one of the archives does |
| Walker.ReportedFileOrigin | main.py:57-73 | a file an archive reports comes from a listed file of a walk step of that archive, which was extracted |
| Walker.AddedFileOrigin | main.py:45-73 | every registered candidate comes from a file, of a walk step, of an extracted archive |
| Walker.AddedFilesSelected | main.py:64-69 | every registered candidate passes the mode's selection predicate |
| Walker.AddedFileArchive | main.py:45-73 | every registered candidate lies below the extraction directory of an extracted archive |
| Walker.AddedFilesInsideExtracted | main.py:45-73 | every registered candidate lies below a recorded extraction directory |
| Walker.SucceededDirsContains | main.py:57-62 | an archive that was chmodded and extracted has its directory recorded |
| Walker.SelectedFileReported | main.py:64-73 | per-file isolation: a selected file of an extracted archive is registered if `addFile` accepts it, and otherwise warned about while the loop goes on |
| Walker.FolderSelection | main.py:64-73 | in folder mode, a path is registered exactly when it is an accepted `.v` file directly inside a directory named as the target folder |
| Walker.SingleSelection | main.py:110-117 | in single mode, a path is registered exactly when it is an accepted file whose name ends with the target suffix, at any depth |
| Walker.SelectFilesLoop | main.py:66-73 | the loop over one step's files computes the recursive definition |
| Walker.SelectWalkLoop | main.py:64-73 | the loop over the walk computes the recursive definition |
| Walker.ProcessArchiveStep | main.py:46-73 | one loop iteration, with `continue` as an early return, computes the per-archive contribution |
| Walker.CollectLoop | main.py:43-75 | the archive loop computes the fold, and the `extracted_dirs` it returns are those of the archives that extracted, in order |
| Batch.GlobVerilog | main.py:38 | the `*.v` glob of the base folder: the entries whose names end with `.v` and do not start with a dot, joined to the folder, in listing order |
| Batch.RegisterBaseFolder | main.py:37-41 | registering the base folder succeeds exactly when every globbed `*.v` entry is accepted, and then registers exactly the globbed files |
| Batch.FirstRefusalEndsRun | main.py:37-41 | a failed registration names the first globbed base file that was refused |
| Batch.RunFolder | main.py:31-75 | folder mode fails exactly when a base file is refused; otherwise its candidates are the archive loop's with the folder policy |
| Batch.RunSingle | main.py:77-120 | single mode raises `FileNotFoundError` for a missing base file before any archive; it succeeds exactly when there is no base file or it exists and is accepted |
| Batch.RunMode | main.py:171-189 | a successful run's loop result is the fold with the chosen mode's policy |
| Report.RemoveTree | main.py:149 | deleting a directory removes it and every path below it, and keeps every path outside it |
| Report.CleanupDirs | main.py:142-151 | cleanup only removes paths; a recorded directory survives only when its deletion failed and was warned about; for every recorded directory that exists and whose deletion does not fail, nothing at or below it remains, whatever the other deletions do; paths outside every recorded directory stay |
| Report.CleanupExact | main.py:142-151 | with no deletion failing, exactly the paths outside every recorded directory remain |
| Report.CleanupKeepsUncovered | main.py:142-151 | a path below no existing recorded directory whose deletion succeeds survives the cleanup; so a failing directory that no successful deletion covers stays, with its contents, and is warned about |
| Report.SaveMossReport | main.py:122-151 | the first report step that raises ends the call, named as the stage, with the disk unchanged; when all four succeed the cleanup loop runs: no recorded directory survives unless its deletion failed, nothing at or below an existing recorded directory whose deletion does not fail remains, every path below no such directory stays, and paths outside every recorded directory stay |
| Tool.RunTool | main.py:153-191 | a base-file failure stops the run before the disk changes; otherwise a cleaned-up run removes every extraction directory whose deletion did not fail, and an aborted report leaves all of them |
| Tool.MissingBaseFileStops | main.py:83-87 | in single mode a missing base file stops the run with `FileNotFoundError`, whatever the archives |
| Tool.CleanRunLeavesNoExtraction | main.py:142-151 | when the report steps succeed and no deletion fails, no directory the run extracted into remains |
| Tool.FailedReportLeaksExtraction | main.py:122-151 | when a report step raises, every directory the run extracted into remains on disk |
| Tool.SampleRun | main.py:45-75 | `s1.tar.gz` holding `rtl/top.v`, in folder mode with target `rtl`: extracted into `s1`, `s1/rtl/top.v` is the only candidate, and `s1` is deleted afterwards |

## Left out

- Discovery by `glob("**/*.tar.gz", recursive=True)` is not modelled: the archives arrive as a sequence in discovery order.
- The tar codec is not modelled. Each format's attempt is given as done, `ReadError` or another exception. A partial extraction before an exception is not modelled.
- The contents of the extracted tree are not modelled: `os.walk` is given as its list of steps, each with its relative root and file names.
- `os.chmod`'s mode bits (`S_IRUSR|S_IWUSR|S_IRGRP|S_IROTH`, and `S_IWUSR` during cleanup) are not modelled, only whether the call raises.
- The Moss client (`send`, `saveWebPage`, `download_report`, `addFile`, `addBaseFile`) is not modelled: each call's success is given.
- The timestamped report directory (`datetime.now()`) and the `report.html` existence check are reduced to a flag. `Report.SaveMossReport` only reports whether the page was written.
- Batch.RegisterBaseFolder: takes the base-folder path literally and joins it to one directory listing; glob metacharacters (`*`, `?`, `[`) inside `--base_folder` are not expanded, because the glob over directory names is not modelled.
- Tool.WithExtracted: assumes that every recorded extraction directory exists once the archive loop is over. `tarfile.extractall` creates the target directory only as the parent of a member it writes, so an empty but valid archive is recorded without its directory ever being created; the model does not track that case. In that case `Tool.FailedReportLeaksExtraction` speaks of a directory that was never there, and the cleanup loop's existence check skips it.
- Argument parsing, the mode-argument validation in `main` and the `mosspy` import check are not modelled: the mode arrives already chosen.
- Printing and logging are not modelled; printed warnings become `Warning` values.
- A partial `shutil.rmtree` is not modelled: a deletion either removes the whole tree or raises and leaves it in place.

=== FILE: batch.dfy ===
/** Base-file registration and the two run functions, `run_moss_folder`
    (main.py lines 31-75) and `run_moss_single` (lines 77-120). `Moss.addBaseFile`
    is not modelled: whether it accepts a file is given. Its exceptions are not
    caught in either mode, so a refused base file ends the run. */
module Batch {
  import opened Outcomes
  import opened Strings
  import opened Paths
  import opened Selection
  import opened Walker

  /** A directory entry of the base folder and whether registering it succeeds. */
  datatype BaseEntry = BaseEntry(name: string, addOk: bool)

  /** `--base_folder`: its directory and its listing. */
  datatype BaseFolder = BaseFolder(dir: Path, entries: seq<BaseEntry>)

  /** `--base_file`: its path, whether it exists, and whether registering it succeeds. */
  datatype BaseFile = BaseFile(path: Path, present: bool, addOk: bool)

  /** The run mode, chosen once from `--mode`, with its mode-specific arguments. */
  datatype Mode =
    | FolderMode(baseFolder: Option<BaseFolder>, targetFolder: string)
    | SingleMode(baseFile: Option<BaseFile>, targetFile: string)

  /** The exceptions that end a run before any archive is processed. */
  datatype Fatal = BaseFileNotFound(path: Path) | BaseAddFailed(path: Path)

  /** The job handed to the report step: registered base files and the loop's result. */
  datatype Job = Job(base: seq<Path>, collected: Collected)

  /** The glob `*.v`: the name ends with `.v`, and, as `*` never matches a
      leading dot, it is not a hidden file. */
  predicate GlobsAsVerilog(name: string)
  {
    EndsWith(name, VerilogExt) && !(|name| > 0 && name[0] == '.')
  }

  /** The entries the base-folder glob returns, in listing order. */
  function GlobVerilog(dir: Path, entries: seq<BaseEntry>): seq<Path>
  {
    if |entries| == 0 then []
    else (if GlobsAsVerilog(entries[0].name) then [Join(dir, entries[0].name)] else []) + GlobVerilog(dir, entries[1..])
  }

  /** Registers every globbed base file in order; the first refusal escapes
      as an exception and ends the run. */
  function RegisterBaseFolder(dir: Path, entries: seq<BaseEntry>): (r: Result<seq<Path>, Fatal>)
    ensures r.Ok? <==> forall j :: 0 <= j < |entries| && GlobsAsVerilog(entries[j].name) ==> entries[j].addOk
    ensures r.Ok? ==> r.value == GlobVerilog(dir, entries)
  {
    if |entries| == 0 then Ok([])
    else
      var e := entries[0];
      var rest := RegisterBaseFolder(dir, entries[1..]);
      assert forall j :: 1 <= j < |entries| ==> entries[j] == entries[1..][j - 1];
      if !GlobsAsVerilog(e.name) then rest
      else if !e.addOk then Err(BaseAddFailed(Join(dir, e.name)))
      else if rest.Err? then rest
      else Ok([Join(dir, e.name)] + rest.value)
  }

  /** Entry `j` is the first globbed entry, in listing order, that is refused. */
  ghost predicate FirstRefused(entries: seq<BaseEntry>, j: int)
  {
    && 0 <= j < |entries| && GlobsAsVerilog(entries[j].name) && !entries[j].addOk
    && forall i :: 0 <= i < j && GlobsAsVerilog(entries[i].name) ==> entries[i].addOk
  }

  /** The exception that ends a base-folder registration names the first
      globbed file, in listing order, that was refused. */
  lemma {:induction false} FirstRefusalEndsRun(dir: Path, entries: seq<BaseEntry>)
    requires RegisterBaseFolder(dir, entries).Err?
    ensures exists j :: FirstRefused(entries, j)
              && RegisterBaseFolder(dir, entries).error == BaseAddFailed(Join(dir, entries[j].name))
  {
    var e, tail := entries[0], entries[1..];
    if GlobsAsVerilog(e.name) && !e.addOk {
      assert FirstRefused(entries, 0);
    } else {
      assert RegisterBaseFolder(dir, entries) == RegisterBaseFolder(dir, tail);
      FirstRefusalEndsRun(dir, tail);
      var j :| FirstRefused(tail, j) && RegisterBaseFolder(dir, tail).error == BaseAddFailed(Join(dir, tail[j].name));
      assert forall i :: 1 <= i <= j + 1 ==> entries[i] == tail[i - 1];
      assert FirstRefused(entries, j + 1);
    }
  }

  /** `run_moss_folder`: register the base folder's files, if one is given,
      then run the archive loop with the folder policy. */
  function RunFolder(baseFolder: Option<BaseFolder>, targetFolder: string, archives: seq<Archive>): (r: Result<Job, Fatal>)
    ensures r.Ok? <==> baseFolder.None? || forall j :: 0 <= j < |baseFolder.value.entries| && GlobsAsVerilog(baseFolder.value.entries[j].name) ==> baseFolder.value.entries[j].addOk
    ensures r.Ok? ==> r.value.collected == Collect(Folder(targetFolder), archives)
    ensures r.Ok? ==> r.value.base == (if baseFolder.None? then [] else GlobVerilog(baseFolder.value.dir, baseFolder.value.entries))
  {
    var base := if baseFolder.None? then Ok([]) else RegisterBaseFolder(baseFolder.value.dir, baseFolder.value.entries);
    match base
    case Err(e) => Err(e)
    case Ok(files) => Ok(Job(files, Collect(Folder(targetFolder), archives)))
  }

  /** `run_moss_single`: a base file that is given must exist, else the run
      ends with `FileNotFoundError` before any archive is processed; then the
      archive loop runs with the suffix policy. */
  function RunSingle(baseFile: Option<BaseFile>, targetFile: string, archives: seq<Archive>): (r: Result<Job, Fatal>)
    ensures baseFile.Some? && !baseFile.value.present ==> r == Err(BaseFileNotFound(baseFile.value.path))
    ensures r.Ok? <==> baseFile.None? || (baseFile.value.present && baseFile.value.addOk)
    ensures r.Ok? ==> r.value.collected == Collect(Single(targetFile), archives)
    ensures r.Ok? ==> r.value.base == (if baseFile.None? then [] else [baseFile.value.path])
  {
    match baseFile
    case None => Ok(Job([], Collect(Single(targetFile), archives)))
    case Some(b) =>
      if !b.present then Err(BaseFileNotFound(b.path))
      else if !b.addOk then Err(BaseAddFailed(b.path))
      else Ok(Job([b.path], Collect(Single(targetFile), archives)))
  }

  /** The mode's policy. */
  function PolicyOf(mode: Mode): Policy
  {
    match mode
    case FolderMode(_, target) => Folder(target)
    case SingleMode(_, suffix) => Single(suffix)
  }

  /** The run for the chosen mode. */
  function RunMode(mode: Mode, archives: seq<Archive>): (r: Result<Job, Fatal>)
    ensures r.Ok? ==> r.value.collected == Collect(PolicyOf(mode), archives)
  {
    match mode
    case FolderMode(baseFolder, target) => RunFolder(baseFolder, target, archives)
    case SingleMode(baseFile, suffix) => RunSingle(baseFile, suffix, archives)
  }
}

=== FILE: extract.dfy ===
/** Trial decoding of a student archive (`extract_tar_auto`, main.py lines
    13-29). The archive codec is not modelled: what happens when the archive
    is opened and expanded in one format is given as an `Attempt`. */
module Extract {
  import opened Paths

  /** The two tar formats, in the order they are tried. */
  datatype Format = Gzip | PlainTar

  /** What opening and expanding the archive in one format does: it succeeds,
      raises `tarfile.ReadError` (the stream is not in that format), or raises
      any other exception. */
  datatype Attempt = Done | ReadError(detail: string) | OtherError(detail: string)

  /** The exception `extract_tar_auto` lets escape: the one it raises itself
      when both formats are unreadable, naming the archive and carrying the
      plain-tar error, or one raised by an attempt and not caught. */
  datatype ExtractError =
    | Unreadable(archive: Path, detail: string)
    | Raised(detail: string)

  datatype Outcome = Extracted | Failed(error: ExtractError)

  /** The result of the trial, together with the formats that were tried. */
  datatype Trial = Trial(tried: seq<Format>, outcome: Outcome)

  /** `extract_tar_auto`: gzip first, plain tar only after gzip raised
      `ReadError`; a success at either step returns at once. */
  function ExtractTarAuto(archive: Path, gzip: Attempt, plain: Attempt): Trial
  {
    match gzip
    case Done => Trial([Gzip], Extracted)
    case OtherError(e) => Trial([Gzip], Failed(Raised(e)))
    case ReadError(_) =>
      match plain
      case Done => Trial([Gzip, PlainTar], Extracted)
      case ReadError(e) => Trial([Gzip, PlainTar], Failed(Unreadable(archive, e)))
      case OtherError(e) => Trial([Gzip, PlainTar], Failed(Raised(e)))
  }

  /** What the plain-tar attempt would do matters only when gzip raised
      `ReadError`: otherwise the plain attempt is never made. */
  lemma PlainIgnoredUnlessGzipUnreadable(archive: Path, gzip: Attempt, plain1: Attempt, plain2: Attempt)
    requires !gzip.ReadError?
    ensures ExtractTarAuto(archive, gzip, plain1) == ExtractTarAuto(archive, gzip, plain2)
  {
  }

  /** The order of the trial: gzip is always tried, and tried first; plain
      tar is tried second and only when gzip raised `ReadError`. */
  lemma TrialOrder(archive: Path, gzip: Attempt, plain: Attempt)
    ensures var t := ExtractTarAuto(archive, gzip, plain);
      && 1 <= |t.tried| <= 2 && t.tried[0] == Gzip
      && (PlainTar in t.tried <==> gzip.ReadError?)
  {
  }

  /** The outcome of the trial: success at either step returns at once; the
      archive is reported unreadable, with the plain-tar error, only when both
      formats raised `ReadError`; any other exception escapes as it is. */
  lemma TrialOutcome(archive: Path, gzip: Attempt, plain: Attempt)
    ensures var t := ExtractTarAuto(archive, gzip, plain);
      && (t.outcome.Extracted? <==> gzip.Done? || (gzip.ReadError? && plain.Done?))
      && (t.outcome.Extracted? ==> (if gzip.Done? then Gzip else PlainTar) == t.tried[|t.tried| - 1])
      && (t.outcome.Failed? && t.outcome.error.Unreadable? <==> gzip.ReadError? && plain.ReadError?)
      && (gzip.ReadError? && plain.ReadError? ==> t.outcome == Failed(Unreadable(archive, plain.detail)))
      && (gzip.ReadError? && plain.OtherError? ==> t.outcome == Failed(Raised(plain.detail)))
      && (gzip.OtherError? ==> t.outcome == Failed(Raised(gzip.detail)))
  {
  }
}

=== FILE: outcomes.dfy ===
/** Failure-carrying values shared by the whole model. Python exceptions that
    escape a function become `Err`, and optional arguments become `Option`. */
module Outcomes {

  datatype Option<+T> = None | Some(value: T)

  datatype Result<+T, +E> = Ok(value: T) | Err(error: E)
}

=== FILE: paths.dfy ===
/** Paths and the naming of extraction directories (main.py lines 46-49 and
    92-95). A path is the sequence of its components, so `os.path.join` is
    appending a component and `dirname` / `basename` split off the last one; a
    trailing empty component stands for a trailing separator. */
module Paths {
  import opened Strings

  type Path = seq<string>

  /** The suffix the archive glob looks for and the naming step deletes. */
  const ArchiveSuffix: string := ".tar.gz"

  /** `os.path.dirname`. */
  function Dirname(p: Path): Path
  {
    if |p| == 0 then [] else p[..|p| - 1]
  }

  /** `os.path.basename`. */
  function Basename(p: Path): string
  {
    if |p| == 0 then "" else p[|p| - 1]
  }

  /** `os.path.join(dir, name)` for a single component `name`. */
  function Join(dir: Path, name: string): (r: Path)
    ensures Dirname(r) == dir && Basename(r) == name
  {
    dir + [name]
  }

  /** The directory an archive is extracted into: a sibling of the archive
      whose name is the archive's name with every `.tar.gz` deleted. */
  function ExtractDir(archive: Path): (r: Path)
    ensures Dirname(r) == Dirname(archive)
    ensures Basename(r) == DeleteAll(Basename(archive), ArchiveSuffix)
    ensures |r| == |archive| || (|archive| == 0 && |r| == 1)
  {
    Join(Dirname(archive), DeleteAll(Basename(archive), ArchiveSuffix))
  }

  /** No proper prefix of `.tar.gz` is also a suffix of it, so two occurrences
      of it can never overlap. */
  lemma ArchiveSuffixUnbordered(k: int)
    requires 0 < k < |ArchiveSuffix|
    ensures ArchiveSuffix[..k] != ArchiveSuffix[|ArchiveSuffix| - k..]
  {
    var s := ArchiveSuffix;
    if k == 3 {
      assert s[..k][1] == 't' && s[|s| - k..][1] == 'g';
    } else {
      assert s[..k][0] == '.' && s[|s| - k..][0] != '.';
    }
  }

  /** A name `stem + rest`, where `rest` starts with `.tar.gz`, has no
      occurrence of the suffix starting inside `stem` when `stem` itself does
      not contain it. */
  lemma NoEarlyMatch(stem: string, rest: string)
    requires !Contains(stem, ArchiveSuffix)
    requires |rest| >= |ArchiveSuffix| && rest[..|ArchiveSuffix|] == ArchiveSuffix
    ensures forall i :: 0 <= i < |stem| ==> !MatchAt(stem + rest, ArchiveSuffix, i)
  {
    var s := ArchiveSuffix;
    forall i | 0 <= i < |stem|
      ensures !MatchAt(stem + rest, s, i)
    {
      if i + |s| <= |stem| {
        assert (stem + rest)[i..i + |s|] == stem[i..i + |s|];
        assert !MatchAt(stem, s, i);
      } else {
        var k := |stem| - i;
        var m := |s| - k;
        ArchiveSuffixUnbordered(m);
        var w := (stem + rest)[i..i + |s|];
        assert w[k..] == rest[..m] == s[..m];
        assert s[k..] == s[|s| - m..];
        assert w[k..] != s[k..];
        assert w != s;
      }
    }
  }

  /** Deleting `.tar.gz` from `stem + rest`, where `rest` starts with the
      suffix, keeps `stem` and continues after it. */
  lemma DeleteAfterStem(stem: string, rest: string)
    requires !Contains(stem, ArchiveSuffix)
    requires |rest| >= |ArchiveSuffix| && rest[..|ArchiveSuffix|] == ArchiveSuffix
    ensures DeleteAll(stem + rest, ArchiveSuffix) == stem + DeleteAll(rest[|ArchiveSuffix|..], ArchiveSuffix)
  {
    NoEarlyMatch(stem, rest);
    DeleteAllKeepsPrefix(stem, rest, ArchiveSuffix);
    assert DeleteAll(rest, ArchiveSuffix) == DeleteAll(rest[|ArchiveSuffix|..], ArchiveSuffix);
  }

  /** The usual case agrees with stripping the suffix: an archive named
      `stem.tar.gz`, with no other `.tar.gz` in `stem`, is extracted into the
      sibling directory `stem`. */
  lemma ExtractDirStripsSuffix(dir: Path, stem: string)
    requires !Contains(stem, ArchiveSuffix)
    ensures ExtractDir(Join(dir, stem + ArchiveSuffix)) == Join(dir, stem)
  {
    var s := ArchiveSuffix;
    DeleteAfterStem(stem, s);
    assert s[|s|..] == "";
    assert DeleteAll("", s) == "";
    assert DeleteAll(stem + s, s) == stem;
    var a := Join(dir, stem + s);
    assert Dirname(a) == dir && Basename(a) == stem + s;
  }

  /** The discovery glob never returns a hidden name (`*` does not match a
      leading dot), and for such a name the extraction directory keeps the
      name's first character. So it is never empty, and an archive is never
      extracted into the directory that holds it. */
  lemma VisibleArchiveGetsOwnDir(archive: Path)
    requires |Basename(archive)| > 0 && Basename(archive)[0] != '.'
    ensures var name := Basename(ExtractDir(archive));
      |name| > 0 && name[0] == Basename(archive)[0]
  {
    var name := Basename(archive);
    if |name| >= |ArchiveSuffix| {
      assert name[..|ArchiveSuffix|][0] == name[0];
    }
  }

  /** Because every occurrence is deleted, the naming is not injective: the
      archives `stem.tar.gz` and `stem.tar.gz.tar.gz` in one directory are
      extracted into the same directory. */
  lemma ExtractDirCollides(dir: Path, stem: string)
    requires !Contains(stem, ArchiveSuffix)
    ensures Join(dir, stem + ArchiveSuffix) != Join(dir, stem + ArchiveSuffix + ArchiveSuffix)
    ensures ExtractDir(Join(dir, stem + ArchiveSuffix + ArchiveSuffix)) == Join(dir, stem)
  {
    var s := ArchiveSuffix;
    var name := stem + s + s;
    assert |stem + s| != |name|;
    assert stem + s + s == stem + (s + s);
    assert (s + s)[..|s|] == s && (s + s)[|s|..] == s;
    DeleteAfterStem(stem, s + s);
    ExtractDirStripsSuffix([], "");
    assert DeleteAll(s, s) == "";
    assert DeleteAll(name, s) == stem;
    var a := Join(dir, name);
    assert Dirname(a) == dir && Basename(a) == name;
  }
}

=== FILE: report.dfy ===
/** `save_moss_report` (main.py lines 122-151): send the job, save and
    download the report, then delete the extraction directories. The service
    and the clock are not modelled; whether each report step raises is given.
    The filesystem is the set of paths that exist; deleting a directory
    removes it and everything below it. */
module Report {
  import opened Paths

  /** Whether each report step succeeds, and whether `report.html` exists
      after the save. */
  datatype Service = Service(sendOk: bool, makeDirOk: bool, saveOk: bool, downloadOk: bool, reportWritten: bool)

  /** The report steps, in order; an exception in any of them escapes. */
  datatype Stage = Send | MakeReportDir | SavePage | Download

  /** What the cleanup loop did: the paths still present afterwards, the
      directories it deleted and those it warned about, in order. */
  datatype Cleanup = Cleanup(remaining: set<Path>, removed: seq<Path>, failed: seq<Path>)

  /** The outcome of `save_moss_report`: an escaping exception ends it before
      the cleanup loop, otherwise it reports whether the snapshot was saved
      and what the cleanup did. */
  datatype ReportRun =
    | Aborted(stage: Stage, remaining: set<Path>)
    | Finished(saved: bool, cleanup: Cleanup)

  /** `shutil.rmtree(d)`: `d` and every path below it disappear. */
  function RemoveTree(present: set<Path>, d: Path): (r: set<Path>)
    ensures r <= present && d !in r
    ensures forall p :: p in r ==> !(d <= p)
    ensures forall p :: p in present && !(d <= p) ==> p in r
  {
    set p | p in present && !(d <= p)
  }

  /** No directory of `dirs` contains `p`. */
  predicate OutsideAll(dirs: seq<Path>, p: Path)
  {
    forall i :: 0 <= i < |dirs| ==> !(dirs[i] <= p)
  }

  /** The cleanup loop: each recorded directory that still exists is deleted
      (after its files are made writable); a directory whose deletion raises
      (those in `failing`) is warned about, left in place, and the loop goes
      on with the next one. */
  function CleanupDirs(dirs: seq<Path>, present: set<Path>, failing: set<Path>): (r: Cleanup)
    ensures r.remaining <= present
    ensures forall d :: d in dirs && d in r.remaining ==> d in failing && d in r.failed
    ensures forall p :: p in present && OutsideAll(dirs, p) ==> p in r.remaining
    ensures forall d :: d in r.failed ==> d in dirs && d in failing
    ensures forall d :: d in r.removed ==> d in dirs && d !in failing && d !in r.remaining
    ensures forall d, p :: d in r.removed && d <= p ==> p !in r.remaining
    ensures forall d, p :: d in dirs && d in present && d !in failing && d <= p ==> p !in r.remaining
  {
    if |dirs| == 0 then Cleanup(present, [], [])
    else
      var d := dirs[0];
      assert forall p :: OutsideAll(dirs, p) ==> OutsideAll(dirs[1..], p) && !(d <= p) by {
        forall p | OutsideAll(dirs, p)
          ensures OutsideAll(dirs[1..], p) && !(d <= p)
        {
          assert forall i :: 1 <= i < |dirs| ==> dirs[1..][i - 1] == dirs[i];
        }
      }
      if d !in present then
        CleanupDirs(dirs[1..], present, failing)
      else if d in failing then
        var rest := CleanupDirs(dirs[1..], present, failing);
        Cleanup(rest.remaining, rest.removed, [d] + rest.failed)
      else
        var rest := CleanupDirs(dirs[1..], RemoveTree(present, d), failing);
        assert forall e, p :: e in dirs && e in present && e !in failing && e <= p ==> p !in rest.remaining by {
          forall e, p | e in dirs && e in present && e !in failing && e <= p
            ensures p !in rest.remaining
          {
            if e == d || d <= e {
              PrefixTrans(d, e, p);
            } else {
              assert e in dirs[1..];
            }
          }
        }
        Cleanup(rest.remaining, [d] + rest.removed, rest.failed)
  }

  /** Being below is transitive. */
  lemma PrefixTrans(a: Path, b: Path, c: Path)
    requires a <= b && b <= c
    ensures a <= c
  {
    assert c[..|a|] == b[..|a|];
  }

  /** A real directory tree: every ancestor of a present path is present. */
  ghost predicate Closed(present: set<Path>)
  {
    forall p, k :: p in present && 0 <= k <= |p| ==> p[..k] in present
  }

  lemma OutsideAllCons(dirs: seq<Path>, p: Path)
    requires |dirs| > 0
    ensures OutsideAll(dirs, p) <==> !(dirs[0] <= p) && OutsideAll(dirs[1..], p)
  {
    assert forall i :: 1 <= i < |dirs| ==> dirs[1..][i - 1] == dirs[i];
  }

  lemma ClosedAncestor(present: set<Path>, d: Path, p: Path)
    requires Closed(present) && p in present
    ensures d <= p ==> d in present
  {
    if d <= p {
      assert p[..|d|] == d;
    }
  }

  lemma RemoveTreeClosed(present: set<Path>, d: Path)
    requires Closed(present)
    ensures Closed(RemoveTree(present, d))
  {
    forall p, k | p in RemoveTree(present, d) && 0 <= k <= |p|
      ensures p[..k] in RemoveTree(present, d)
    {
      assert d <= p[..k] ==> d <= p;
    }
  }

  /** With no deletion failing, the cleanup leaves exactly the paths that lie
      outside every recorded directory. */
  lemma {:induction false} CleanupExact(dirs: seq<Path>, present: set<Path>)
    requires Closed(present)
    ensures CleanupDirs(dirs, present, {}).remaining == set p | p in present && OutsideAll(dirs, p)
  {
    if |dirs| > 0 {
      var d := dirs[0];
      forall p ensures OutsideAll(dirs, p) <==> !(d <= p) && OutsideAll(dirs[1..], p) {
        OutsideAllCons(dirs, p);
      }
      if d !in present {
        forall p | p in present ensures d <= p ==> d in present {
          ClosedAncestor(present, d, p);
        }
        CleanupExact(dirs[1..], present);
      } else {
        RemoveTreeClosed(present, d);
        CleanupExact(dirs[1..], RemoveTree(present, d));
      }
    }
  }

  /** No recorded directory that exists and whose deletion succeeds has `p`
      at or below it. */
  predicate Uncovered(dirs: seq<Path>, present: set<Path>, failing: set<Path>, p: Path)
  {
    forall d :: d in dirs && d in present && d !in failing ==> !(d <= p)
  }

  /** A path that lies below no recorded directory whose deletion succeeds
      survives the cleanup. In particular a failing directory that no
      successful deletion covers stays in place with all its contents, and
      so, by the contract of `CleanupDirs`, it is warned about. */
  lemma {:induction false} CleanupKeepsUncovered(dirs: seq<Path>, present: set<Path>, failing: set<Path>, p: Path)
    requires p in present && Uncovered(dirs, present, failing, p)
    ensures p in CleanupDirs(dirs, present, failing).remaining
  {
    if |dirs| > 0 {
      var d := dirs[0];
      assert forall e :: e in dirs[1..] ==> e in dirs;
      if d !in present || d in failing {
        CleanupKeepsUncovered(dirs[1..], present, failing, p);
      } else {
        assert p in RemoveTree(present, d);
        CleanupKeepsUncovered(dirs[1..], RemoveTree(present, d), failing, p);
      }
    }
  }

  /** `save_moss_report`: the cleanup loop is reached only when every report
      step succeeded; an exception in one of them leaves every directory in
      place. */
  function SaveMossReport(svc: Service, dirs: seq<Path>, present: set<Path>, failing: set<Path>): (r: ReportRun)
    ensures r.Finished? <==> svc.sendOk && svc.makeDirOk && svc.saveOk && svc.downloadOk
    ensures r.Aborted? ==> r.remaining == present
    ensures !svc.sendOk ==> r.Aborted? && r.stage == Send
    ensures svc.sendOk && !svc.makeDirOk ==> r.Aborted? && r.stage == MakeReportDir
    ensures svc.sendOk && svc.makeDirOk && !svc.saveOk ==> r.Aborted? && r.stage == SavePage
    ensures svc.sendOk && svc.makeDirOk && svc.saveOk && !svc.downloadOk ==> r.Aborted? && r.stage == Download
    ensures r.Finished? ==> forall d :: d in dirs && d in r.cleanup.remaining ==> d in failing
    ensures r.Finished? ==> forall p :: p in present && OutsideAll(dirs, p) ==> p in r.cleanup.remaining
    ensures r.Finished? ==> forall d, p :: d in r.cleanup.removed && d <= p ==> p !in r.cleanup.remaining
    ensures r.Finished? ==> forall d, p :: d in dirs && d in present && d !in failing && d <= p ==> p !in r.cleanup.remaining
    ensures r.Finished? ==> forall p :: p in present && Uncovered(dirs, present, failing, p) ==> p in r.cleanup.remaining
    ensures r.Finished? ==> r.saved == svc.reportWritten
  {
    if !svc.sendOk then Aborted(Send, present)
    else if !svc.makeDirOk then Aborted(MakeReportDir, present)
    else if !svc.saveOk then Aborted(SavePage, present)
    else if !svc.downloadOk then Aborted(Download, present)
    else
      var c := CleanupDirs(dirs, present, failing);
      assert forall p :: p in present && Uncovered(dirs, present, failing, p) ==> p in c.remaining by {
        forall p | p in present && Uncovered(dirs, present, failing, p) {
          CleanupKeepsUncovered(dirs, present, failing, p);
        }
      }
      Finished(svc.reportWritten, c)
  }
}

=== FILE: selection.dfy ===
/** The two file-selection policies (main.py lines 64-68 and 110-113): pure
    predicates over the name of the directory a file sits in and the file's
    own name. */
module Selection {
  import opened Strings

  /** The extension folder mode looks for. */
  const VerilogExt: string := ".v"

  /** Folder mode names a directory (`--target_folder`); single mode names a
      file-name suffix (`--target_file`). */
  datatype Policy = Folder(targetFolder: string) | Single(targetFile: string)

  /** Whether a file called `fileName`, found in a directory whose base name
      is `dirName`, is handed to the similarity service. */
  predicate Selects(policy: Policy, dirName: string, fileName: string)
  {
    match policy
    case Folder(target) => dirName == target && EndsWith(fileName, VerilogExt)
    case Single(suffix) => EndsWith(fileName, suffix)
  }
}

=== FILE: strings.dfy ===
/** The two Python string operations the tool relies on: `str.endswith` and
    `str.replace(pattern, "")`. */
module Strings {

  /** Python `s.endswith(suffix)`; every string ends with the empty string. */
  predicate EndsWith(s: string, suffix: string)
  {
    |suffix| <= |s| && s[|s| - |suffix|..] == suffix
  }

  /** `s` ends with `suffix` exactly when `s` is something followed by `suffix`. */
  lemma EndsWithIff(s: string, suffix: string)
    ensures EndsWith(s, suffix) <==> exists stem :: s == stem + suffix
  {
    if EndsWith(s, suffix) {
      assert s == s[..|s| - |suffix|] + suffix;
    }
    if exists stem :: s == stem + suffix {
      var stem :| s == stem + suffix;
      assert s[|s| - |suffix|..] == suffix;
    }
  }

  /** `p` occurs in `s` starting at index `i`. */
  predicate MatchAt(s: string, p: string, i: int)
  {
    0 <= i && i + |p| <= |s| && s[i..i + |p|] == p
  }

  /** Python `p in s`. */
  ghost predicate Contains(s: string, p: string)
  {
    exists i :: MatchAt(s, p, i)
  }

  /** Python `s.replace(p, "")`: scan left to right and delete every
      non-overlapping occurrence of `p`. An empty pattern leaves `s` as it is. */
  function DeleteAll(s: string, p: string): (r: string)
    ensures |r| <= |s|
    ensures |p| > 0 && MatchAt(s, p, 0) ==> |r| <= |s| - |p|
    decreases |s|
  {
    if |p| == 0 || |s| < |p| then s
    else if s[..|p|] == p then DeleteAll(s[|p|..], p)
    else [s[0]] + DeleteAll(s[1..], p)
  }

  /** Dropping the first character shifts every later occurrence by one. */
  lemma MatchAtTail(s: string, p: string, i: int)
    requires |s| > 0 && i >= 1
    ensures MatchAt(s, p, i) <==> MatchAt(s[1..], p, i - 1)
  {
    if i + |p| <= |s| {
      assert s[i..i + |p|] == s[1..][i - 1..i - 1 + |p|];
    }
  }

  /** Deleting a non-empty pattern changes nothing exactly when the pattern
      does not occur. */
  lemma {:induction false} DeleteAllFixpointIff(s: string, p: string)
    requires |p| > 0
    ensures DeleteAll(s, p) == s <==> !Contains(s, p)
    decreases |s|
  {
    if |s| < |p| {
      assert forall i :: !MatchAt(s, p, i);
    } else if s[..|p|] == p {
      assert MatchAt(s, p, 0);
    } else {
      DeleteAllFixpointIff(s[1..], p);
      assert !MatchAt(s, p, 0);
      forall i
        ensures MatchAt(s, p, i) <==> i >= 1 && MatchAt(s[1..], p, i - 1)
      {
        if i >= 1 {
          MatchAtTail(s, p, i);
        }
      }
      if Contains(s[1..], p) {
        var i :| MatchAt(s[1..], p, i);
        assert MatchAt(s, p, i + 1);
      }
      assert DeleteAll(s, p) == [s[0]] + DeleteAll(s[1..], p);
      assert s == [s[0]] + s[1..];
    }
  }

  /** When no occurrence of `p` starts inside `a`, deletion keeps `a` whole and
      continues on `b`. */
  lemma {:induction false} DeleteAllKeepsPrefix(a: string, b: string, p: string)
    requires |p| > 0
    requires forall i :: 0 <= i < |a| ==> !MatchAt(a + b, p, i)
    ensures DeleteAll(a + b, p) == a + DeleteAll(b, p)
    decreases |a|
  {
    if |a| == 0 {
      assert a + b == b;
    } else if |a + b| < |p| {
      assert DeleteAll(b, p) == b;
    } else {
      assert !MatchAt(a + b, p, 0);
      assert (a + b)[1..] == a[1..] + b;
      forall i | 0 <= i < |a[1..]|
        ensures !MatchAt(a[1..] + b, p, i)
      {
        MatchAtTail(a + b, p, i + 1);
      }
      DeleteAllKeepsPrefix(a[1..], b, p);
      assert a == [a[0]] + a[1..];
    }
  }
}

=== FILE: tool.dfy ===
/** The whole command (main.py lines 153-191 and the functions they call):
    run the chosen mode, then save the report and clean up. Argument parsing
    is not modelled; the mode arrives already chosen. */
module Tool {
  import opened Outcomes
  import opened Strings
  import opened Paths
  import opened Extract
  import opened Selection
  import opened Walker
  import opened Batch
  import opened Report

  /** A run either ends with an exception from the mode's base-file step,
      before anything touched the disk, or hands its job to the report step. */
  datatype ToolRun =
    | Stopped(fatal: Fatal, disk: set<Path>)
    | Completed(job: Job, report: ReportRun)

  /** The paths on disk once the archive loop has extracted into `dirs`. */
  function WithExtracted(present: set<Path>, dirs: seq<Path>): (r: set<Path>)
    ensures present <= r
    ensures forall d :: d in dirs ==> d in r
  {
    present + set d | d in dirs
  }

  /** `main`: the mode's run, then `save_moss_report` over the directories it
      extracted, starting from the disk `present`. */
  function RunTool(mode: Mode, archives: seq<Archive>, svc: Service, present: set<Path>, failing: set<Path>): (r: ToolRun)
    ensures r.Stopped? <==> RunMode(mode, archives).Err?
    ensures r.Stopped? ==> r.disk == present
    ensures r.Completed? ==> r.job.collected == Collect(PolicyOf(mode), archives)
    ensures r.Completed? && r.report.Finished? ==>
              forall d :: d in r.job.collected.extracted && d in r.report.cleanup.remaining ==> d in failing
    ensures r.Completed? && r.report.Aborted? ==>
              forall d :: d in r.job.collected.extracted ==> d in r.report.remaining
  {
    match RunMode(mode, archives)
    case Err(e) => Stopped(e, present)
    case Ok(job) =>
      var dirs := job.collected.extracted;
      Completed(job, SaveMossReport(svc, dirs, WithExtracted(present, dirs), failing))
  }

  /** In single mode, a base file that does not exist ends the run with
      `FileNotFoundError`, whatever the archives, and nothing is extracted. */
  lemma MissingBaseFileStops(b: BaseFile, target: string, archives: seq<Archive>, svc: Service, present: set<Path>, failing: set<Path>)
    requires !b.present
    ensures RunTool(SingleMode(Some(b), target), archives, svc, present, failing) == Stopped(BaseFileNotFound(b.path), present)
  {
  }

  /** When every report step succeeds and no deletion fails, no directory the
      run extracted into is left on disk. */
  lemma CleanRunLeavesNoExtraction(mode: Mode, archives: seq<Archive>, svc: Service, present: set<Path>, d: Path)
    requires svc.sendOk && svc.makeDirOk && svc.saveOk && svc.downloadOk
    requires RunMode(mode, archives).Ok?
    requires d in SucceededDirs(archives)
    ensures RunTool(mode, archives, svc, present, {}).report.Finished?
    ensures d !in RunTool(mode, archives, svc, present, {}).report.cleanup.remaining
  {
    ExtractedInOrder(PolicyOf(mode), archives);
  }

  /** When a report step raises, every directory the run extracted into is
      left on disk. */
  lemma FailedReportLeaksExtraction(mode: Mode, archives: seq<Archive>, svc: Service, present: set<Path>, failing: set<Path>, d: Path)
    requires !(svc.sendOk && svc.makeDirOk && svc.saveOk && svc.downloadOk)
    requires RunMode(mode, archives).Ok?
    requires d in SucceededDirs(archives)
    ensures RunTool(mode, archives, svc, present, failing).report.Aborted?
    ensures d in RunTool(mode, archives, svc, present, failing).report.remaining
  {
    ExtractedInOrder(PolicyOf(mode), archives);
  }

  /** A student directory holding `s1.tar.gz`, a gzip archive whose only
      file is `rtl/top.v`. */
  function SampleArchive(dir: Path): Archive
  {
    Archive(Join(dir, "s1" + ArchiveSuffix), true, Done, Done,
            [WalkStep([], []), WalkStep(["rtl"], [FileEntry("top.v", true)])])
  }

  /** Folder mode with target folder `rtl` on that archive: it is extracted
      next to itself into `s1`, `s1/rtl/top.v` is the only candidate, and a
      clean report step deletes `s1` again. */
  lemma SampleRun(dir: Path, svc: Service, present: set<Path>)
    requires svc.sendOk && svc.makeDirOk && svc.saveOk && svc.downloadOk
    ensures var r := RunTool(FolderMode(None, "rtl"), [SampleArchive(dir)], svc, present, {});
            && r.Completed?
            && r.job.collected == Collected([dir + ["s1"]], [dir + ["s1", "rtl", "top.v"]], [])
            && r.report.Finished?
            && dir + ["s1"] !in r.report.cleanup.remaining
  {
    var a := SampleArchive(dir);
    assert !Contains("s1", ArchiveSuffix) by {
      forall i ensures !MatchAt("s1", ArchiveSuffix, i) { }
    }
    ExtractDirStripsSuffix(dir, "s1");
    var s1 := dir + ["s1"];
    assert ExtractDir(a.path) == s1;
    assert Extracts(a);
    var top := Join(s1 + ["rtl"], "top.v");
    assert top == dir + ["s1", "rtl", "top.v"];
    assert SelectWalk(Folder("rtl"), s1, a.walk) == Collected([], [top], []) by {
      assert a.walk[..1] == [WalkStep([], [])];
      assert SelectWalk(Folder("rtl"), s1, a.walk[..1]) == Nothing;
      assert s1 + [] == s1 && s1 + ["rtl"] == s1 + ["rtl"];
      var files := [FileEntry("top.v", true)];
      assert files[..0] == [];
      assert EndsWith("top.v", VerilogExt);
      assert SelectFiles(Folder("rtl"), s1 + ["rtl"], files) == Collected([], [top], []);
    }
    assert ProcessArchive(Folder("rtl"), a) == Collected([s1], [top], []);
    assert [a][..0] == [];
    assert Collect(Folder("rtl"), [a]) == Collected([s1], [top], []);
  }
}

=== FILE: walker.dfy ===
/** The archive loop shared by `run_moss_folder` and `run_moss_single`
    (main.py lines 43-75 and 89-120). Discovery, `os.chmod`, the archive codec,
    `os.walk` and `Moss.addFile` are not executed: each archive carries their
    outcomes, and the loop is a fold over the archives in discovery order. */
module Walker {
  import opened Strings
  import opened Paths
  import opened Extract
  import opened Selection

  /** A file listed by `os.walk`, with whether registering it succeeds. */
  datatype FileEntry = FileEntry(name: string, addOk: bool)

  /** One `(root, _, files)` triple of `os.walk`; `rel` is the path of `root`
      below the extraction directory (empty for the directory itself). */
  datatype WalkStep = WalkStep(rel: seq<string>, files: seq<FileEntry>)

  /** A discovered archive and the outcomes of everything done to it. */
  datatype Archive = Archive(
    path: Path,
    chmodOk: bool,
    gzip: Attempt,
    plain: Attempt,
    walk: seq<WalkStep>)

  /** The warnings the loop prints and then continues past. */
  datatype Warning =
    | ChmodFailed(archive: Path)
    | ExtractFailed(archive: Path, error: ExtractError)
    | AddFailed(file: Path)

  /** What the loop accumulates: `extracted_dirs`, the files registered as
      candidates, and the printed warnings, each in order. */
  datatype Collected = Collected(extracted: seq<Path>, added: seq<Path>, warnings: seq<Warning>)

  const Nothing := Collected([], [], [])

  /** `a` followed by `b`. */
  function Then(a: Collected, b: Collected): Collected
  {
    Collected(a.extracted + b.extracted, a.added + b.added, a.warnings + b.warnings)
  }

  /** The files of one walk step, taken in order: a selected file is added,
      or, when registering it fails, warned about and skipped. */
  function SelectFiles(policy: Policy, root: Path, files: seq<FileEntry>): (c: Collected)
    ensures c.extracted == []
    ensures |c.added| + |c.warnings| <= |files|
  {
    if |files| == 0 then Nothing
    else
      var c := SelectFiles(policy, root, files[..|files| - 1]);
      var f := files[|files| - 1];
      if !Selects(policy, Basename(root), f.name) then c
      else if f.addOk then Then(c, Collected([], [Join(root, f.name)], []))
      else Then(c, Collected([], [], [AddFailed(Join(root, f.name))]))
  }

  /** The whole walk of one extraction directory `dir`. */
  function SelectWalk(policy: Policy, dir: Path, walk: seq<WalkStep>): (c: Collected)
    ensures c.extracted == []
  {
    if |walk| == 0 then Nothing
    else
      var last := walk[|walk| - 1];
      Then(SelectWalk(policy, dir, walk[..|walk| - 1]), SelectFiles(policy, dir + last.rel, last.files))
  }

  /** The archive's permissions were set and one of the two formats extracted it. */
  predicate Extracts(a: Archive)
  {
    a.chmodOk && ExtractTarAuto(a.path, a.gzip, a.plain).outcome.Extracted?
  }

  /** One iteration of the archive loop. */
  function ProcessArchive(policy: Policy, a: Archive): (c: Collected)
    ensures c.extracted == (if Extracts(a) then [ExtractDir(a.path)] else [])
    ensures !Extracts(a) ==> c == Collected([], [], [SkipWarning(a)])
  {
    if !a.chmodOk then Collected([], [], [ChmodFailed(a.path)])
    else
      var t := ExtractTarAuto(a.path, a.gzip, a.plain);
      if t.outcome.Failed? then Collected([], [], [ExtractFailed(a.path, t.outcome.error)])
      else
        var dir := ExtractDir(a.path);
        Then(Collected([dir], [], []), SelectWalk(policy, dir, a.walk))
  }

  /** The archive loop over archives in discovery order. */
  function Collect(policy: Policy, archives: seq<Archive>): (c: Collected)
    ensures |c.extracted| <= |archives|
  {
    if |archives| == 0 then Nothing
    else Then(Collect(policy, archives[..|archives| - 1]), ProcessArchive(policy, archives[|archives| - 1]))
  }

  /** Reference definition of the recording rule, read front to back: the
      extraction directories of the archives that extracted, in order. */
  function SucceededDirs(archives: seq<Archive>): seq<Path>
  {
    if |archives| == 0 then []
    else (if Extracts(archives[0]) then [ExtractDir(archives[0].path)] else []) + SucceededDirs(archives[1..])
  }

  lemma ThenAssoc(a: Collected, b: Collected, c: Collected)
    ensures Then(Then(a, b), c) == Then(a, Then(b, c))
  {
    assert (a.extracted + b.extracted) + c.extracted == a.extracted + (b.extracted + c.extracted);
    assert (a.added + b.added) + c.added == a.added + (b.added + c.added);
    assert (a.warnings + b.warnings) + c.warnings == a.warnings + (b.warnings + c.warnings);
  }

  /** A sequence is its part before `k`, its element at `k` and its part after. */
  lemma SplitAt<T>(s: seq<T>, k: int)
    requires 0 <= k < |s|
    ensures s == s[..k] + ([s[k]] + s[k + 1..])
  {
  }

  /** One more iteration of the archive loop processes one more archive. */
  lemma CollectPrefixStep(policy: Policy, archives: seq<Archive>, k: int)
    requires 0 <= k < |archives|
    ensures Collect(policy, archives[..k + 1]) == Then(Collect(policy, archives[..k]), ProcessArchive(policy, archives[k]))
  {
    assert archives[..k + 1][..k] == archives[..k];
  }

  lemma ThenParts(e: seq<Path>, a: seq<Path>, w: seq<Warning>)
    ensures Then(Collected(e, [], []), Collected([], a, w)) == Collected(e, a, w)
  {
    assert e + [] == e && [] + a == a && [] + w == w;
  }

  /** Running the loop over the archives `as + [x]` runs it over `as` and then processes `x`. */
  lemma CollectSnoc(policy: Policy, archives: seq<Archive>, x: Archive)
    ensures Collect(policy, archives + [x]) == Then(Collect(policy, archives), ProcessArchive(policy, x))
  {
    var s := archives + [x];
    assert s[..|s| - 1] == archives;
    assert s[|s| - 1] == x;
  }

  /** The warning printed for an archive that is skipped. */
  function SkipWarning(a: Archive): Warning
    requires !Extracts(a)
  {
    if a.chmodOk then ExtractFailed(a.path, ExtractTarAuto(a.path, a.gzip, a.plain).outcome.error)
    else ChmodFailed(a.path)
  }

  /** The loop is a fold: running it over `a + b` is running it over `a`
      and then over `b`. */
  lemma {:induction false} CollectConcat(policy: Policy, a: seq<Archive>, b: seq<Archive>)
    ensures Collect(policy, a + b) == Then(Collect(policy, a), Collect(policy, b))
    decreases |b|
  {
    if |b| == 0 {
      assert a + b == a;
      var c := Collect(policy, a);
      assert Then(c, Nothing) == c;
    } else {
      var b', x := b[..|b| - 1], b[|b| - 1];
      assert b == b' + [x];
      assert a + b == (a + b') + [x];
      CollectSnoc(policy, a + b', x);
      CollectSnoc(policy, b', x);
      CollectConcat(policy, a, b');
      ThenAssoc(Collect(policy, a), Collect(policy, b'), ProcessArchive(policy, x));
    }
  }

  lemma CollectSingle(policy: Policy, x: Archive)
    ensures Collect(policy, [x]) == ProcessArchive(policy, x)
  {
    CollectSnoc(policy, [], x);
    var p := ProcessArchive(policy, x);
    assert Then(Nothing, p) == p;
  }

  /** Recording rule: `extracted_dirs` holds, in discovery order, exactly the
      extraction directories of the archives whose permissions were set and
      whose extraction succeeded. */
  lemma {:induction false} ExtractedInOrder(policy: Policy, archives: seq<Archive>)
    ensures Collect(policy, archives).extracted == SucceededDirs(archives)
    decreases |archives|
  {
    if |archives| > 0 {
      var x, rest := archives[0], archives[1..];
      assert archives == [x] + rest;
      CollectConcat(policy, [x], rest);
      CollectSingle(policy, x);
      ExtractedInOrder(policy, rest);
      assert Collect(policy, archives).extracted == ProcessArchive(policy, x).extracted + Collect(policy, rest).extracted;
    }
  }

  lemma SkipBetween(policy: Policy, before: seq<Archive>, x: Archive, after: seq<Archive>)
    requires !Extracts(x)
    ensures var c, cb, ca := Collect(policy, before + ([x] + after)), Collect(policy, before), Collect(policy, after);
      c == Collected(cb.extracted + ca.extracted, cb.added + ca.added, cb.warnings + ([SkipWarning(x)] + ca.warnings))
  {
    var cb, ca, p := Collect(policy, before), Collect(policy, after), ProcessArchive(policy, x);
    assert Collect(policy, [x] + after) == Then(p, ca) by {
      CollectConcat(policy, [x], after);
      CollectSingle(policy, x);
    }
    assert Collect(policy, before + ([x] + after)) == Then(cb, Then(p, ca)) by {
      CollectConcat(policy, before, [x] + after);
    }
    assert Then(p, ca) == Collected(ca.extracted, ca.added, [SkipWarning(x)] + ca.warnings) by {
      assert p == Collected([], [], [SkipWarning(x)]);
      assert [] + ca.extracted == ca.extracted && [] + ca.added == ca.added;
    }
  }

  /** An archive whose permissions could not be set, or that neither format
      could extract, is invisible to the batch: the recorded directories and
      the added files are those of the run without it, the later archives are
      still processed, and the one warning for it sits between the warnings of
      the archives before and after it. */
  lemma SkippedArchiveInvisible(policy: Policy, archives: seq<Archive>, k: int)
    requires 0 <= k < |archives| && !Extracts(archives[k])
    ensures Collect(policy, archives).extracted == Collect(policy, archives[..k] + archives[k + 1..]).extracted
    ensures Collect(policy, archives).added == Collect(policy, archives[..k] + archives[k + 1..]).added
    ensures Collect(policy, archives).warnings
         == Collect(policy, archives[..k]).warnings + [SkipWarning(archives[k])] + Collect(policy, archives[k + 1..]).warnings
  {
    var x, before, after := archives[k], archives[..k], archives[k + 1..];
    assert Collect(policy, archives) == Collect(policy, before + ([x] + after)) by {
      SplitAt(archives, k);
    }
    SkipBetween(policy, before, x, after);
    CollectConcat(policy, before, after);
  }

  /** Chmod failure: the archive is not extracted, not recorded and adds
      nothing, whatever its codec outcomes and contents. */
  lemma ChmodFailureSkips(policy: Policy, archives: seq<Archive>, k: int)
    requires 0 <= k < |archives| && !archives[k].chmodOk
    ensures Collect(policy, archives).extracted == Collect(policy, archives[..k] + archives[k + 1..]).extracted
    ensures Collect(policy, archives).added == Collect(policy, archives[..k] + archives[k + 1..]).added
    ensures ChmodFailed(archives[k].path) in Collect(policy, archives).warnings
  {
    SkippedArchiveInvisible(policy, archives, k);
  }

  /** The outcome of one registration: the file was added (`ok`) or warned
      about as a failed addition (`!ok`). */
  ghost predicate Reported(c: Collected, p: Path, ok: bool)
  {
    if ok then p in c.added else AddFailed(p) in c.warnings
  }

  /** The file `f`, listed under `root`, is selected, its registration has
      outcome `ok`, and its path is `p`. */
  ghost predicate FileHit(policy: Policy, root: Path, f: FileEntry, p: Path, ok: bool)
  {
    Selects(policy, Basename(root), f.name) && f.addOk == ok && p == Join(root, f.name)
  }

  /** Some file of walk step `step` below `dir` is such a file. */
  ghost predicate StepReports(policy: Policy, dir: Path, step: WalkStep, p: Path, ok: bool)
  {
    exists j :: 0 <= j < |step.files| && FileHit(policy, dir + step.rel, step.files[j], p, ok)
  }

  /** Archive `a` was extracted and some file of its walk is such a file. */
  ghost predicate ArchiveReports(policy: Policy, a: Archive, p: Path, ok: bool)
  {
    Extracts(a) && exists i :: 0 <= i < |a.walk| && StepReports(policy, ExtractDir(a.path), a.walk[i], p, ok)
  }

  lemma ReportedThen(a: Collected, b: Collected, p: Path, ok: bool)
    ensures Reported(Then(a, b), p, ok) <==> Reported(a, p, ok) || Reported(b, p, ok)
  {
  }

  lemma FilesSplit(policy: Policy, root: Path, files: seq<FileEntry>, init: seq<FileEntry>, p: Path, ok: bool)
    requires |files| > 0 && init == files[..|files| - 1]
    ensures (exists j :: 0 <= j < |files| && FileHit(policy, root, files[j], p, ok))
        <==> (exists j :: 0 <= j < |init| && FileHit(policy, root, init[j], p, ok))
             || FileHit(policy, root, files[|files| - 1], p, ok)
  {
    assert forall j :: 0 <= j < |init| ==> init[j] == files[j];
  }

  lemma StepsSplit(policy: Policy, dir: Path, walk: seq<WalkStep>, init: seq<WalkStep>, p: Path, ok: bool)
    requires |walk| > 0 && init == walk[..|walk| - 1]
    ensures (exists i :: 0 <= i < |walk| && StepReports(policy, dir, walk[i], p, ok))
        <==> (exists i :: 0 <= i < |init| && StepReports(policy, dir, init[i], p, ok))
             || StepReports(policy, dir, walk[|walk| - 1], p, ok)
  {
    assert forall i :: 0 <= i < |init| ==> init[i] == walk[i];
  }

  lemma {:induction false} SelectFilesReported(policy: Policy, root: Path, files: seq<FileEntry>, p: Path, ok: bool)
    ensures Reported(SelectFiles(policy, root, files), p, ok)
        <==> exists j :: 0 <= j < |files| && FileHit(policy, root, files[j], p, ok)
    decreases |files|
  {
    if |files| > 0 {
      var init, f := files[..|files| - 1], files[|files| - 1];
      var c := SelectFiles(policy, root, init);
      assert Reported(SelectFiles(policy, root, files), p, ok) <==> Reported(c, p, ok) || FileHit(policy, root, f, p, ok) by {
        if Selects(policy, Basename(root), f.name) {
          var d := if f.addOk then Collected([], [Join(root, f.name)], []) else Collected([], [], [AddFailed(Join(root, f.name))]);
          ReportedThen(c, d, p, ok);
        }
      }
      SelectFilesReported(policy, root, init, p, ok);
      FilesSplit(policy, root, files, init, p, ok);
    }
  }

  lemma {:induction false} SelectWalkReported(policy: Policy, dir: Path, walk: seq<WalkStep>, p: Path, ok: bool)
    ensures Reported(SelectWalk(policy, dir, walk), p, ok)
        <==> exists i :: 0 <= i < |walk| && StepReports(policy, dir, walk[i], p, ok)
    decreases |walk|
  {
    if |walk| > 0 {
      var init, last := walk[..|walk| - 1], walk[|walk| - 1];
      var c1, c2 := SelectWalk(policy, dir, init), SelectFiles(policy, dir + last.rel, last.files);
      assert Reported(SelectWalk(policy, dir, walk), p, ok) <==> Reported(c1, p, ok) || Reported(c2, p, ok) by {
        assert SelectWalk(policy, dir, walk) == Then(c1, c2);
        ReportedThen(c1, c2, p, ok);
      }
      SelectWalkReported(policy, dir, init, p, ok);
      SelectFilesReported(policy, dir + last.rel, last.files, p, ok);
      StepsSplit(policy, dir, walk, init, p, ok);
    }
  }

  lemma ProcessArchiveReported(policy: Policy, a: Archive, p: Path, ok: bool)
    ensures Reported(ProcessArchive(policy, a), p, ok) <==> ArchiveReports(policy, a, p, ok)
  {
    if Extracts(a) {
      var dir := ExtractDir(a.path);
      SelectWalkReported(policy, dir, a.walk, p, ok);
      ReportedThen(Collected([dir], [], []), SelectWalk(policy, dir, a.walk), p, ok);
    }
  }

  lemma ReportsSplit(policy: Policy, archives: seq<Archive>, init: seq<Archive>, p: Path, ok: bool)
    requires |archives| > 0 && init == archives[..|archives| - 1]
    ensures (exists k :: 0 <= k < |archives| && ArchiveReports(policy, archives[k], p, ok))
        <==> (exists k :: 0 <= k < |init| && ArchiveReports(policy, init[k], p, ok))
             || ArchiveReports(policy, archives[|archives| - 1], p, ok)
  {
    assert forall k :: 0 <= k < |init| ==> init[k] == archives[k];
  }

  /** Every registration the loop reports, as an addition or as a failed
      addition, is that of a file that was selected in an extracted archive,
      and every such file is reported with its own outcome, whatever happened
      to the other files and archives. */
  lemma {:induction false} CollectReported(policy: Policy, archives: seq<Archive>, p: Path, ok: bool)
    ensures Reported(Collect(policy, archives), p, ok)
        <==> exists k :: 0 <= k < |archives| && ArchiveReports(policy, archives[k], p, ok)
    decreases |archives|
  {
    if |archives| > 0 {
      var init, last := archives[..|archives| - 1], archives[|archives| - 1];
      var c1, c2 := Collect(policy, init), ProcessArchive(policy, last);
      assert Collect(policy, archives) == Then(c1, c2);
      CollectReported(policy, init, p, ok);
      ProcessArchiveReported(policy, last, p, ok);
      ReportedThen(c1, c2, p, ok);
      ReportsSplit(policy, archives, init, p, ok);
    }
  }

  /** A file an archive reports comes from one of its walk steps. */
  lemma ReportedFileOrigin(policy: Policy, a: Archive, p: Path, ok: bool) returns (i: int, j: int)
    requires ArchiveReports(policy, a, p, ok)
    ensures Extracts(a) && 0 <= i < |a.walk| && 0 <= j < |a.walk[i].files|
    ensures FileHit(policy, ExtractDir(a.path) + a.walk[i].rel, a.walk[i].files[j], p, ok)
  {
    var dir := ExtractDir(a.path);
    i :| 0 <= i < |a.walk| && StepReports(policy, dir, a.walk[i], p, ok);
    var step := a.walk[i];
    j :| 0 <= j < |step.files| && FileHit(policy, dir + step.rel, step.files[j], p, ok);
  }

  /** An added file comes from walk step `i` of the extracted archive `k`. */
  lemma AddedFileOrigin(policy: Policy, archives: seq<Archive>, p: Path)
      returns (k: int, i: int, j: int)
    requires p in Collect(policy, archives).added
    ensures 0 <= k < |archives| && Extracts(archives[k])
    ensures 0 <= i < |archives[k].walk| && 0 <= j < |archives[k].walk[i].files|
    ensures FileHit(policy, ExtractDir(archives[k].path) + archives[k].walk[i].rel, archives[k].walk[i].files[j], p, true)
  {
    CollectReported(policy, archives, p, true);
    k :| 0 <= k < |archives| && ArchiveReports(policy, archives[k], p, true);
    i, j := ReportedFileOrigin(policy, archives[k], p, true);
  }

  /** Every added file was selected by the policy from the name of the
      directory it sits in and its own name. */
  lemma AddedFilesSelected(policy: Policy, archives: seq<Archive>, p: Path)
    requires p in Collect(policy, archives).added
    ensures Selects(policy, Basename(Dirname(p)), Basename(p))
  {
    var k, i, j := AddedFileOrigin(policy, archives, p);
  }

  /** An added file lies inside the extraction directory of the archive it
      came from. */
  lemma AddedFileArchive(policy: Policy, archives: seq<Archive>, p: Path) returns (k: int)
    requires p in Collect(policy, archives).added
    ensures 0 <= k < |archives| && Extracts(archives[k]) && ExtractDir(archives[k].path) <= p
  {
    var i, j;
    k, i, j := AddedFileOrigin(policy, archives, p);
    InsideRoot(ExtractDir(archives[k].path), archives[k].walk[i].rel, archives[k].walk[i].files[j].name);
  }

  /** A file listed below `dir` lies inside `dir`. */
  lemma InsideRoot(dir: Path, rel: Path, name: string)
    ensures dir <= Join(dir + rel, name)
  {
    var p := Join(dir + rel, name);
    assert p == dir + (rel + [name]);
    assert p[..|dir|] == dir;
  }

  /** Every added file lies inside a recorded extraction directory. */
  lemma AddedFilesInsideExtracted(policy: Policy, archives: seq<Archive>, p: Path)
    requires p in Collect(policy, archives).added
    ensures exists d :: d in Collect(policy, archives).extracted && d <= p
  {
    var k := AddedFileArchive(policy, archives, p);
    ExtractedInOrder(policy, archives);
    SucceededDirsContains(archives, k);
  }

  lemma {:induction false} SucceededDirsContains(archives: seq<Archive>, k: int)
    requires 0 <= k < |archives| && Extracts(archives[k])
    ensures ExtractDir(archives[k].path) in SucceededDirs(archives)
    decreases |archives|
  {
    if k > 0 {
      SucceededDirsContains(archives[1..], k - 1);
    }
  }

  /** Per-file isolation: a selected file of an extracted archive is added
      when its own registration succeeds and warned about when it fails,
      whatever happens to every other file and archive. */
  lemma SelectedFileReported(policy: Policy, archives: seq<Archive>, k: int, i: int, j: int)
    requires 0 <= k < |archives| && Extracts(archives[k])
    requires 0 <= i < |archives[k].walk| && 0 <= j < |archives[k].walk[i].files|
    requires var root := ExtractDir(archives[k].path) + archives[k].walk[i].rel;
      Selects(policy, Basename(root), archives[k].walk[i].files[j].name)
    ensures var root, f := ExtractDir(archives[k].path) + archives[k].walk[i].rel, archives[k].walk[i].files[j];
      if f.addOk then Join(root, f.name) in Collect(policy, archives).added
      else AddFailed(Join(root, f.name)) in Collect(policy, archives).warnings
  {
    var a := archives[k];
    var dir := ExtractDir(a.path);
    var f := a.walk[i].files[j];
    var p := Join(dir + a.walk[i].rel, f.name);
    assert FileHit(policy, dir + a.walk[i].rel, a.walk[i].files[j], p, f.addOk);
    assert StepReports(policy, dir, a.walk[i], p, f.addOk);
    assert ArchiveReports(policy, archives[k], p, f.addOk);
    CollectReported(policy, archives, p, f.addOk);
  }

  /** Folder selection: every added file sits directly in a directory named
      `target` and has the `.v` extension; conversely every such file of an
      extracted archive whose registration succeeds is added. */
  lemma FolderSelection(target: string, archives: seq<Archive>, p: Path)
    ensures p in Collect(Folder(target), archives).added
        ==> Basename(Dirname(p)) == target && EndsWith(Basename(p), VerilogExt)
    ensures (exists k, i :: 0 <= k < |archives| && ArchiveStepHolds(archives, k, i, p)
               && Basename(Dirname(p)) == target && EndsWith(Basename(p), VerilogExt))
        ==> p in Collect(Folder(target), archives).added
  {
    if p in Collect(Folder(target), archives).added {
      AddedFilesSelected(Folder(target), archives, p);
    }
    if exists k, i :: 0 <= k < |archives| && ArchiveStepHolds(archives, k, i, p)
         && Basename(Dirname(p)) == target && EndsWith(Basename(p), VerilogExt) {
      var k, i :| 0 <= k < |archives| && ArchiveStepHolds(archives, k, i, p)
         && Basename(Dirname(p)) == target && EndsWith(Basename(p), VerilogExt);
      var a := archives[k];
      var j :| 0 <= j < |a.walk[i].files| && a.walk[i].files[j].addOk
         && p == Join(ExtractDir(a.path) + a.walk[i].rel, a.walk[i].files[j].name);
      SelectedFileReported(Folder(target), archives, k, i, j);
    }
  }

  /** Single selection: every added file's name ends with `suffix`, and every
      file of an extracted archive whose name ends with `suffix`, at any depth
      and in any directory, is added when its registration succeeds. */
  lemma SingleSelection(suffix: string, archives: seq<Archive>, p: Path)
    ensures p in Collect(Single(suffix), archives).added ==> EndsWith(Basename(p), suffix)
    ensures (exists k, i :: 0 <= k < |archives| && ArchiveStepHolds(archives, k, i, p)
               && EndsWith(Basename(p), suffix))
        ==> p in Collect(Single(suffix), archives).added
  {
    if p in Collect(Single(suffix), archives).added {
      AddedFilesSelected(Single(suffix), archives, p);
    }
    if exists k, i :: 0 <= k < |archives| && ArchiveStepHolds(archives, k, i, p) && EndsWith(Basename(p), suffix) {
      var k, i :| 0 <= k < |archives| && ArchiveStepHolds(archives, k, i, p) && EndsWith(Basename(p), suffix);
      var a := archives[k];
      var j :| 0 <= j < |a.walk[i].files| && a.walk[i].files[j].addOk
         && p == Join(ExtractDir(a.path) + a.walk[i].rel, a.walk[i].files[j].name);
      SelectedFileReported(Single(suffix), archives, k, i, j);
    }
  }

  /** `p` is a file, listed in walk step `i` of the extracted archive `k`,
      whose registration succeeds. */
  ghost predicate ArchiveStepHolds(archives: seq<Archive>, k: int, i: int, p: Path)
    requires 0 <= k < |archives|
  {
    var a := archives[k];
    Extracts(a) && 0 <= i < |a.walk|
    && exists j :: 0 <= j < |a.walk[i].files| && a.walk[i].files[j].addOk
         && p == Join(ExtractDir(a.path) + a.walk[i].rel, a.walk[i].files[j].name)
  }

  /** The inner loops of main.py lines 64-73 and 110-118, statement by
      statement: the files of one directory listing. */
  method SelectFilesLoop(policy: Policy, root: Path, files: seq<FileEntry>) returns (added: seq<Path>, warnings: seq<Warning>)
    ensures Collected([], added, warnings) == SelectFiles(policy, root, files)
  {
    added, warnings := [], [];
    for j := 0 to |files|
      invariant Collected([], added, warnings) == SelectFiles(policy, root, files[..j])
    {
      var f := files[j];
      assert files[..j + 1][..j] == files[..j];
      if Selects(policy, Basename(root), f.name) {
        if f.addOk {
          added := added + [Join(root, f.name)];
        } else {
          warnings := warnings + [AddFailed(Join(root, f.name))];
        }
      }
    }
    assert files[..|files|] == files;
  }

  /** The `os.walk` loop over one extraction directory. */
  method SelectWalkLoop(policy: Policy, dir: Path, walk: seq<WalkStep>) returns (added: seq<Path>, warnings: seq<Warning>)
    ensures Collected([], added, warnings) == SelectWalk(policy, dir, walk)
  {
    added, warnings := [], [];
    for i := 0 to |walk|
      invariant Collected([], added, warnings) == SelectWalk(policy, dir, walk[..i])
    {
      var more, failed := SelectFilesLoop(policy, dir + walk[i].rel, walk[i].files);
      assert walk[..i + 1][..i] == walk[..i];
      added, warnings := added + more, warnings + failed;
    }
    assert walk[..|walk|] == walk;
  }

  /** One iteration of the archive loop; each early `return` is one of the
      loop's `continue` statements. */
  method ProcessArchiveStep(policy: Policy, a: Archive)
      returns (extracted: seq<Path>, added: seq<Path>, warnings: seq<Warning>)
    ensures Collected(extracted, added, warnings) == ProcessArchive(policy, a)
  {
    if !a.chmodOk {
      return [], [], [ChmodFailed(a.path)];
    }
    var t := ExtractTarAuto(a.path, a.gzip, a.plain);
    if t.outcome.Failed? {
      return [], [], [ExtractFailed(a.path, t.outcome.error)];
    }
    var dir := ExtractDir(a.path);
    added, warnings := SelectWalkLoop(policy, dir, a.walk);
    extracted := [dir];
    ThenParts([dir], added, warnings);
  }

  /** The archive loop of `run_moss_folder` / `run_moss_single`: it computes
      the fold `Collect`, so it records exactly the extracted archives'
      directories, in discovery order. */
  method CollectLoop(policy: Policy, archives: seq<Archive>)
      returns (extracted: seq<Path>, added: seq<Path>, warnings: seq<Warning>)
    ensures Collected(extracted, added, warnings) == Collect(policy, archives)
    ensures extracted == SucceededDirs(archives)
  {
    extracted, added, warnings := [], [], [];
    for k := 0 to |archives|
      invariant Collected(extracted, added, warnings) == Collect(policy, archives[..k])
    {
      var a := archives[k];
      CollectPrefixStep(policy, archives, k);
      var e, ad, w := ProcessArchiveStep(policy, a);
      extracted, added, warnings := extracted + e, added + ad, warnings + w;
    }
    assert archives[..|archives|] == archives;
    ExtractedInOrder(policy, archives);
  }
}
